=== FILE: README.md ===
# Image analysis: a Dafny model of the analysis core

The application is a single-page image-analysis tool. A user uploads an
image and picks a predefined prompt or types one. The image is then sent
with the prompt to a list of candidate multimodal models, one after
another, until one answers. When none answers, the tool falls back on a
locally computed text. For an image it takes for a UML sequence diagram,
that text is a fixed template with the image's dimensions filled in. For
any other image, it is a report computed from the image's metadata.

This project models that core in Dafny and proves properties of it:

- `text.dfy`, module `Text`:
  - ASCII lower-casing and the substring test behind Python's `in`;
  - decimal rendering of integers, with its inverse.
- `ratio.dfy`, module `Ratio`: the aspect-ratio comparisons
  (`width / height > 1.5` and the like) as exact integer
  cross-multiplications, including the source's convention that an image
  of height 0 has ratio 1.
- `classifier.dfy`, module `Classifier`:
  - `detect_sequence_diagram`, from the file-name keywords and the two
    shape rules;
  - the prompt-keyword override applied in `analyze_image`.
- `remote_caller.dfy`, module `RemoteCaller`: the candidate-model loop. It
  is an imperative method (`AnalyzeRemotely`) proved against a recursive
  specification (`RunCandidates`). Both are stated over an oracle
  `respond` that maps each request to its reply.
- `fallback_report.dfy`, module `FallbackReport`: the metadata report. It
  covers orientation, size category, colour-mode description, likely file
  type, compression, bit depth, the recommendation list (built by
  appends) and its rendering (built by a loop), and the usage
  suggestions.
- `sequence_template.dfy`, module `SequenceTemplate`: the sequence-diagram
  template, proved to carry its dimensions recoverably.
- `app.dfy`, module `App`:
  - the prompt that `main` resolves and the predefined prompts;
  - the conversion of an upload before analysis;
  - the whole analysis, `AnalyzeImage`;
  - the download file name.

Two points of the candidate loop are worth stating plainly:

- The bytes handler stops only on a quota error (`app.py:205-214`); a
  permission error there moves on to the next model, while on the
  image-object attempt it ends the loop (`RemoteCaller.PermissionAsymmetry`).
- A successful run returns only the response text, not the model that
  produced it (`RemoteCaller.Outcome`).

The report's file type follows the lookup as written at `app.py:282-292`,
which compares the whole lower-cased file name with the extension lists
(`FallbackReport.LikelyTypeAsWritten`); the extension-based lookup the
code evidently intends is modelled beside it, under "## Findings".

One assumption about the imaging library is built into `App.PrepareImage`:
an image the library creates (by `Image.new` or `convert`) has no file
format and no `bits` attribute. `FallbackReport.ImageInfo` therefore
records the format and the bit depth as optional.

## Model

| member | source | states |
|---|---|---|
| Text.Lower | app.py:27 | lower-casing keeps the length and maps each character on its own, changing only A-Z |
| Text.LowerAppend | app.py:129 | lower-casing distributes over concatenation |
| Text.LowerOfLowerCase | app.py:130 | a string with no upper-case letter is its own lower-case form |
| Text.ContainsSubstring | app.py:30-31 | a string containing a keyword contains every piece of it |
| Text.ContainsInMiddle | app.py:31 | a keyword found in a piece of a name is found in the whole name |
| Text.Decimal | app.py:114 | the rendering of a number is a non-empty run of digits without a leading zero |
| Text.DecimalValue | app.py:114 | the rendered digits read back as the number |
| Text.DigitRunStops | app.py:72 | the digits of a numeral end where a non-digit follows |
| Text.ReadDecimal | app.py:72 | a numeral followed by a non-digit is read back as its value, leaving the rest |
| Ratio.AboveIsRatio | app.py:41 | comparing `width / height` (1 for height 0) with a fraction `p / q` is decided exactly by cross-multiplying, for both `>` and `<` |
| Ratio.Thresholds | app.py:41-50 | on the real ratio `width / height` (1 for height 0): wide is above 1.5, somewhat wide above 1.2, tall below 0.7, square from 0.9 to 1.1 inclusive |
| Ratio.CrossMultiplied | app.py:41-50 | the same thresholds as integer inequalities for a positive height; height 0 is neither wide nor tall but square |
| Ratio.Bands | app.py:303-308 | "wide" implies "somewhat wide"; the wide, tall and square bands are pairwise disjoint |
| Classifier.DetectSequenceDiagram | app.py:23-52 | a file-name keyword wins; otherwise positive exactly for ratio above 1.5 with height above 200 (wide reason) or ratio above 1.2 with height above 150 (technical reason) |
| Classifier.ApplyPromptOverride | app.py:133-136 | positive exactly when the detection was positive or the prompt has a keyword; a positive detection keeps its reason; any change is to the prompt reason |
| Classifier.Classify | app.py:126-136 | the classification the analysis uses is positive iff detection or prompt says so |
| Classifier.PromptKeywordsLowerCase | app.py:130 | each prompt keyword is its own lower-case form, so a keyword written as is in a prompt survives the lower-casing |
| Classifier.SeqSubsumesSequence | app.py:30 | every name containing "sequence" also contains the keyword "seq" |
| Classifier.FilenameKeywordWins | app.py:29-32 | a name containing any keyword is positive for the file-name reason, whatever the dimensions |
| Classifier.SequenceFileName | app.py:27-32 | any name with "sequence" in it, in any case around it, is a sequence diagram whatever its shape |
| Classifier.ShapeBoundaries | app.py:41-52 | height 200 never meets the wide rule, height 0 is never positive, and the exact boundary cases 304x201, 301x201, 300x200, 240x200, 1000x150 |
| Classifier.OverrideNeverDowngrades | app.py:134-136 | the override leaves a positive detection unchanged whatever the prompt |
| Classifier.DiagramPromptForces | app.py:129-136 | a prompt with a keyword makes any image positive, for the prompt reason when detection was negative |
| RemoteCaller.FirstAttemptVerdict | app.py:169-184 | definition of the image-object error handler; properties in `FirstAttemptTable` |
| RemoteCaller.FirstAttemptTable | app.py:169-184 | image-object errors: quota stops, not-found goes on, permission stops unless not-found matched first, anything else goes on; which error is stored in each case |
| RemoteCaller.SecondAttemptVerdict | app.py:205-214 | definition of the bytes error handler; properties in `SecondAttemptTable` |
| RemoteCaller.SecondAttemptTable | app.py:205-214 | bytes errors: only quota stops; a permission error goes on and is never stored as such |
| RemoteCaller.TryModel | app.py:151-214 | one loop pass makes one or two requests, image object first, bytes only after a continuing error, with the same model and prompt; its exit matches the last reply |
| RemoteCaller.PromptSent | app.py:155-167 | definition: the specialised prompt for a sequence diagram, the user's prompt otherwise; `ScheduleUsesPrompt` and `AtMostTwelveCalls` show every request carries it |
| RemoteCaller.RunCandidates | app.py:148-214 | definition of the whole loop; properties in `CallsInOrder`, `EarlierRequestsFailed`, `RunEndsOnLastRequest`, `StopsEarlyOnlyOnStop` and `AtMostTwelveCalls` |
| RemoteCaller.Schedule | app.py:150-203 | every request the loop can make: two per candidate |
| RemoteCaller.ScheduleUsesPrompt | app.py:154-203 | every request carries the prompt chosen before the loop |
| RemoteCaller.CallsInOrder | app.py:150-214 | the requests made are a prefix of the schedule: models in list order, image object before bytes; none only when there is no model |
| RemoteCaller.EarlierRequestsFailed | app.py:150-214 | every request but the last raised an error whose handler carried on |
| RemoteCaller.RunEndsOnLastRequest | app.py:148-214 | an answer is the last request's reply; a failure stores the error from the last request's verdict, or none when nothing was asked |
| RemoteCaller.StopsEarlyOnlyOnStop | app.py:173-209 | a failed run that made fewer requests than the schedule ended on a terminal error |
| RemoteCaller.AnalyzeRemotely | app.py:138-214 | the loop returns exactly the outcome and the requests of the specification run |
| RemoteCaller.AtMostTwelveCalls | app.py:139-214 | with the six candidates, between one and twelve requests, all with one prompt, and a failure always has a stored error |
| RemoteCaller.QuotaOnFirstRequestStops | app.py:173-175 | a quota error on the first request ends the run after that single request with the quota error |
| RemoteCaller.PermissionAsymmetry | app.py:179-214 | a permission error stops the run on the image-object attempt but not on the bytes attempt |
| RemoteCaller.NotFoundThenAnswer | app.py:176-214 | a missing first model followed by an answer from the second gives that answer after three requests |
| FallbackReport.OrientationOf | app.py:251-257 | landscape, portrait or square exactly by comparing width and height |
| FallbackReport.OrientationOfTurned | app.py:251-257 | swapping width and height swaps landscape and portrait and keeps square |
| FallbackReport.SizeCategoryOf | app.py:271-279 | the four categories by pixel count with strict bounds 307200, 2073600, 4194304 |
| FallbackReport.SizeCategoryMonotone | app.py:271-279 | more pixels never give a smaller category |
| FallbackReport.SizeBoundaries | app.py:271-279 | full HD is Large, 1919x1080 Medium, VGA Medium, 639x480 Small, 2048x2048 Very Large |
| FallbackReport.ColorInfo | app.py:259-269 | the table's description for a known mode, "Unknown mode: " plus the mode otherwise |
| FallbackReport.KnownDescriptionsStartOtherwise | app.py:260-267 | no known description starts like the unknown-mode text |
| FallbackReport.ColorInfoInjective | app.py:259-269 | different modes get different descriptions |
| FallbackReport.Recommendations | app.py:294-308 | definition of the recommendation list; properties in `RecommendationsContents` |
| FallbackReport.RecommendationsContents | app.py:294-308 | at most two entries, the mode entry first; each note present exactly when its condition holds; empty exactly when none applies |
| FallbackReport.BuildRecommendations | app.py:294-308 | the appends build exactly the recommendation list |
| FallbackReport.FeaturesText | app.py:328-332 | definition of the rendered section; properties in `FeaturesRoundTrip` |
| FallbackReport.BulletsSnoc | app.py:329-330 | appending a recommendation appends its bullet line |
| FallbackReport.RenderFeatures | app.py:328-332 | the loop renders one bullet per recommendation in order, or the standard line for none |
| FallbackReport.ParseBulletsRoundTrip | app.py:329-330 | the bullet lines read back as the recommendations |
| FallbackReport.FeaturesRoundTrip | app.py:328-332 | the rendered section determines the recommendation list |
| FallbackReport.CompressionOf | app.py:322 | lossless exactly for PNG, BMP and TIFF; a missing format is lossy |
| FallbackReport.FormatLabel | app.py:317 | "Unknown" exactly for a missing or empty format (or one named "Unknown"); otherwise the format |
| FallbackReport.RawFormat | app.py:322 | the format printed after the compression label: "None" exactly for a missing format (or one named "None"), otherwise the format itself |
| FallbackReport.FormatLinesDiffer | app.py:317-322 | a missing, an empty and an "Unknown" format all read "Unknown" on the format line but "None", "" and "Unknown" after the compression label |
| FallbackReport.PerfectFor | app.py:336 | definition of the "Perfect for" suggestion; properties in `PerfectForMatchesCompression` |
| FallbackReport.PerfectForMatchesCompression | app.py:336 | lossless formats are suggested for the web or for prints; "General use" exactly for lossy formats other than JPEG |
| FallbackReport.AspectAdvice | app.py:338 | the square advice exactly when the ratio is neither above 1.5 nor below 0.7 |
| FallbackReport.SquareAdviceIsBroader | app.py:303-308 | a near-square image gets the square advice, but a 4:3 image gets that advice without the square recommendation |
| FallbackReport.BitDepth | app.py:323 | "Unknown" exactly for a missing or zero bit depth, otherwise its digits |
| FallbackReport.LikelyTypeAsWritten | app.py:282-292 | definition: the whole lower-cased name looked up in the extension lists; properties in `LikelyTypeAsWrittenIgnoresNames` |
| FallbackReport.LikelyTypeAsWrittenIgnoresNames | app.py:282-292 | as written, any name longer than five characters or not starting with a dot gets the generic type |
| FallbackReport.LikelyTypeAsWrittenMissesExtension | app.py:282-292 | as written, "photo.jpg" is reported as a generic image file |
| FallbackReport.LastDot | app.py:282 | the position of the last dot of a name, or none when there is no dot |
| FallbackReport.ExtensionOfName | app.py:282 | a dot-free stem followed by a dotted extension has exactly that extension |
| FallbackReport.LikelyTypeOfJpegUpload | app.py:282-284 | with the extension taken from the name, "photo.jpg" is a photograph |
| FallbackReport.BasicReport | app.py:246-348 | definition of the report's computed fields; properties in `FullHdPngReport`, `PlainRgbReport`, `ReportTypeOfJpegUpload` |
| FallbackReport.BuildReport | app.py:246-348 | the assembled report equals the report specification on every field |
| FallbackReport.ReportTypeOfJpegUpload | app.py:282-292 | the report on any image uploaded as "photo.jpg" gives the generic type, as the code is written |
| FallbackReport.FullHdPngReport | app.py:246-348 | a full-HD RGB PNG is landscape, Large, lossless, suggested for the web, with only the wide-format bullet |
| FallbackReport.PlainRgbReport | app.py:296-338 | a 1000x800 RGB image without format gets the standard line, "Unknown", lossy "(typical for None)" and the square advice |
| SequenceTemplate.SequenceDiagramAnalysis | app.py:64-116 | definition: the template with the decimal width and height filled in; properties in `AnalysisRoundTrip` and `AnalysisInjective` |
| SequenceTemplate.FilledRoundTrip | app.py:66-114 | filling the two dimensions into a template whose separators start with non-digits can be undone |
| SequenceTemplate.TemplateShape | app.py:72 | the text between and after the dimensions starts with a non-digit |
| SequenceTemplate.AnalysisRoundTrip | app.py:64-114 | the width and height are read back exactly from every analysis |
| SequenceTemplate.AnalysisInjective | app.py:64-114 | different dimensions give different analyses |
| App.ResolvePrompt | app.py:911-920 | the predefined option as is; for the custom option, the typed text, or "Describe this image" when it is empty |
| App.ResolvedPromptNonEmpty | app.py:906-919 | whatever is selected and typed, the prompt is never empty |
| App.KeywordInPrompt | app.py:129-136 | a prompt with a keyword written as is (lower case) at any position classifies any image positive |
| App.SequencePromptForces | app.py:854 | the predefined sequence-diagram prompt forces the specialised prompt |
| App.ExtractPromptForces | app.py:855 | the predefined text-extraction prompt forces the specialised prompt |
| App.ExplainPromptForces | app.py:856 | the predefined flow-explanation prompt forces the specialised prompt |
| App.PrepareImage | app.py:878-886 | after conversion the mode is RGB or L and the size unchanged; an RGB or L image is untouched; a converted one loses format and bit depth |
| App.ReportOnUpload | app.py:878-886 | the report on an uploaded image never notes transparency or printing and describes RGB or grayscale; a converted image reads "Unknown" and lossy |
| App.AnalyzeImage | app.py:123-348 | the requests are those of the candidate run; an answer is returned as is; otherwise the sequence-diagram analysis exactly when the image is classified positive, else the metadata report (with the file type as written) |
| App.DownloadFileName | app.py:935 | definition of the download name; properties in `DownloadFileNameRecovers` |
| App.DownloadFileNameRecovers | app.py:935 | the upload's name is recovered from the download name between "image_analysis_" and ".txt" |
| App.DownloadFileNameInjective | app.py:935 | different uploads are downloaded under different names |

## Left out

- Streamlit user interface: page layout, CSS, widgets, spinners, and every
  `st.error`, `st.info` and `st.warning` notice, including the quota and
  permission guidance shown after the loop (`app.py:216-245`). These
  notices change nothing that is returned.
- The remote service, the API key and `genai.configure`: the service is
  the oracle `respond`. Exceptions raised while building the model object
  or saving the PNG buffer count as that request's error reply. On that
  path the source's bytes retry would call the previous model's object (or
  fail on an unbound name for the first model), while the model records the
  request under the current model's name; `genai.GenerativeModel` makes no
  request of its own, so the path is not expected to occur.
- Python's float division in `width / height` rounds, while `Ratio` decides
  each threshold on the exact ratio; for image dimensions of any realistic
  size the rounding does not move a ratio across 1.5, 1.2, 0.7, 0.9 or 1.1.
- Image decoding, pasting onto a white background, `convert` and PNG
  encoding by the imaging library: an image is described by its width,
  height, mode, format and bit depth (`FallbackReport.ImageInfo`). The
  contrast and sharpness enhancement in `analyze_sequence_diagram` is
  computed and never used, so it is left out.
- The outer `try`/`except` blocks that return `None` on an unexpected
  exception: the model has no such exceptions.
- `FallbackReport.BasicReport`: holds the report's computed fields only,
  including the raw format printed after the compression label
  (`typicalFor`). It leaves out the fixed prose around them, the float rendering of the
  aspect ratio (`:.2f`) and the thousands separators in the pixel count.
- `Text.Lower`: lower-cases ASCII letters only. Python lower-cases all of
  Unicode, but no non-ASCII lower-casing yields one of the ASCII keywords.
- `RemoteCaller.AnalyzeRemotely`: takes the model list as a parameter. The
  application always passes the six `CandidateModels`, which is what
  `App.AnalyzeImage` does. The error texts stored in `api_error` are
  modelled by their kind (`ApiError`), not their wording.
- `SequenceTemplate.SequenceDiagramAnalysis` is returned by
  `App.AnalyzeImage` as `SequenceFallback(width, height)`, i.e. the
  dimensions it fills in, not the text itself.
- The download happens only for a non-empty result (`if result:`).
  Displaying the result and the download button are UI, so they are left
  out.
- The helper scripts `check_models.py`, `test_setup.py` and
  `test_vision_api.py` are not part of this model.

## Findings

| source | as written | input that shows it | evidently intended | confidence | as-written member | corrected member |
|---|---|---|---|---|---|---|
| app.py:282-292 | the whole lower-cased file name is compared with the extension lists, so only a file named exactly like ".jpg" gets a specific type | the upload "photo.jpg" is reported as "Image File" | the lower-cased extension of the name is looked up (the variable is named `file_ext_lower`), so "photo.jpg" is a "Photograph or Digital Image" | not executed | FallbackReport.LikelyTypeAsWrittenMissesExtension | FallbackReport.LikelyTypeOfJpegUpload |

The report keeps the lookup as written (`FallbackReport.BasicReport`, see
`FallbackReport.ReportTypeOfJpegUpload`); the corrected lookup
`FallbackReport.LikelyType` is modelled and proved beside it.

=== FILE: app.dfy ===
/** The application around the analysis: the prompt the user ends up with,
    the conversion an upload goes through before it is analysed, the
    analysis itself (classification, the candidate loop and the two offline
    fallbacks) and the name of the downloaded result. */
module App {
  import opened Text
  import Ratio
  import Classifier
  import RemoteCaller
  import FallbackReport
  import SequenceTemplate

  /** `predefined_prompts`, in order. */
  const PredefinedPrompts: seq<string> := [
    "Describe this image in detail",
    "What objects can you identify in this image?",
    "What is the main subject of this image?",
    "Analyze the colors and composition of this image",
    "Is there any text in this image? If so, what does it say?",
    "What is the mood or atmosphere of this image?",
    "Are there any people in this image? Describe them.",
    "What location or setting is depicted in this image?",
    "Analyze this sequence diagram - show all participants, messages, and interactions",
    "Extract all text and labels from this diagram",
    "Explain the flow and logic shown in this technical diagram"
  ]

  const CustomOption: string := "Custom prompt"
  const DefaultPrompt: string := "Describe this image"

  /** The choices of the prompt selector: the custom option first. */
  const PromptOptions: seq<string> := [CustomOption] + PredefinedPrompts

  /** The prompt `main` passes on: the chosen predefined prompt, or the custom
      text, or the default when the custom text is empty. */
  function ResolvePrompt(option: string, custom: string): (prompt: string)
    ensures option != CustomOption ==> prompt == option
    ensures option == CustomOption && custom != "" ==> prompt == custom
    ensures option == CustomOption && custom == "" ==> prompt == DefaultPrompt
  {
    if option == CustomOption then (if custom != "" then custom else DefaultPrompt)
    else option
  }

  /** Whatever the user picks from the selector, and whatever they type, the
      prompt is never empty. */
  lemma ResolvedPromptNonEmpty(option: string, custom: string)
    requires option in PromptOptions
    ensures ResolvePrompt(option, custom) != ""
  {
    var i :| 0 <= i < |PromptOptions| && PromptOptions[i] == option;
    assert forall j :: 0 <= j < |PromptOptions| ==> PromptOptions[j] != "";
  }

  /** A prompt with a prompt keyword written in it as is, in lower case, at
      any position, marks the image as a sequence diagram whatever its name
      and dimensions. */
  lemma KeywordInPrompt(prompt: string, i: nat, k: nat, width: nat, height: nat, fileName: Option<string>)
    requires k < |Classifier.PromptKeywords|
    requires OccursAt(prompt, Classifier.PromptKeywords[k], i)
    ensures Classifier.Classify(width, height, fileName, prompt).Positive?
  {
    var keyword := Classifier.PromptKeywords[k];
    Classifier.PromptKeywordsLowerCase(k);
    assert Lower(prompt)[i..i + |keyword|] == Lower(prompt[i..i + |keyword|]);
    ContainsAt(Lower(prompt), keyword, i);
    Classifier.DiagramPromptForces(width, height, fileName, prompt, k);
  }

  /** The last three predefined prompts, the diagram prompts, always send
      the specialised sequence-diagram prompt. */
  lemma SequencePromptForces(width: nat, height: nat, fileName: Option<string>)
    ensures Classifier.Classify(width, height, fileName, PredefinedPrompts[8]).Positive?
  {
    assert PredefinedPrompts[8][69..80] == Classifier.PromptKeywords[5];
    KeywordInPrompt(PredefinedPrompts[8], 69, 5, width, height, fileName);
  }

  lemma ExtractPromptForces(width: nat, height: nat, fileName: Option<string>)
    ensures Classifier.Classify(width, height, fileName, PredefinedPrompts[9]).Positive?
  {
    assert PredefinedPrompts[9][38..45] == Classifier.PromptKeywords[7];
    KeywordInPrompt(PredefinedPrompts[9], 38, 7, width, height, fileName);
  }

  lemma ExplainPromptForces(width: nat, height: nat, fileName: Option<string>)
    ensures Classifier.Classify(width, height, fileName, PredefinedPrompts[10]).Positive?
  {
    assert PredefinedPrompts[10][51..58] == Classifier.PromptKeywords[7];
    KeywordInPrompt(PredefinedPrompts[10], 51, 7, width, height, fileName);
  }

  // ---------------------------------------------------------------------
  // The upload

  /** What `main` does to an opened image before analysing it: an RGBA image
      is pasted onto a white RGB background, any other mode but RGB and L is
      converted to RGB. Either way the result is a new image, which carries
      no file format and no bit depth. */
  function PrepareImage(info: FallbackReport.ImageInfo): (r: FallbackReport.ImageInfo)
    ensures r.width == info.width && r.height == info.height
    ensures r.mode == "RGB" || r.mode == "L"
    ensures info.mode == "RGB" || info.mode == "L" ==> r == info
    ensures info.mode != "RGB" && info.mode != "L" ==> r.mode == "RGB" && r.format == None && r.bits == None
  {
    if info.mode == "RGBA" then FallbackReport.ImageInfo(info.width, info.height, "RGB", None, None)
    else if info.mode != "RGB" && info.mode != "L" then FallbackReport.ImageInfo(info.width, info.height, "RGB", None, None)
    else info
  }

  /** Since uploads are converted first, the report on an uploaded image
      never mentions transparency or printing, and describes its colour as
      RGB or grayscale; a converted image is reported with an unknown,
      lossy format. */
  lemma ReportOnUpload(info: FallbackReport.ImageInfo, fileName: Option<string>)
    ensures var prepared := PrepareImage(info);
      var recs := FallbackReport.Recommendations(prepared.mode, prepared.width, prepared.height);
      && FallbackReport.TransparentNote !in recs
      && FallbackReport.PrintNote !in recs
      && FallbackReport.BasicReport(prepared, fileName).colorMode in
           {"Color image (Red, Green, Blue)", "Grayscale (Black and White)"}
    ensures info.mode != "RGB" && info.mode != "L" ==>
      var report := FallbackReport.BasicReport(PrepareImage(info), fileName);
      report.fileFormat == "Unknown" && report.compression == FallbackReport.Lossy
  {
    var prepared := PrepareImage(info);
    FallbackReport.RecommendationsContents(prepared.mode, prepared.width, prepared.height);
  }

  // ---------------------------------------------------------------------
  // The analysis

  /** What `analyze_image` returns: the text of the first answer, or, when
      no model answered, the sequence-diagram analysis
      `SequenceTemplate.SequenceDiagramAnalysis(width, height)` or the
      metadata report. */
  datatype Response =
    | Generated(text: string)
    | SequenceFallback(width: nat, height: nat)
    | MetadataFallback(report: FallbackReport.Report)

  /** The analysis of one image: classify it, ask the candidate models, and
      fall back on the sequence-diagram analysis or the metadata report when
      none answers. `calls` are the requests made, in order. */
  method AnalyzeImage(info: FallbackReport.ImageInfo, prompt: string, fileName: Option<string>, respond: RemoteCaller.Call -> RemoteCaller.Reply)
    returns (response: Response, calls: seq<RemoteCaller.Call>)
    ensures var isSequenceDiagram := Classifier.Classify(info.width, info.height, fileName, prompt).Positive?;
      var run := RemoteCaller.RunCandidates(RemoteCaller.CandidateModels, RemoteCaller.PromptSent(isSequenceDiagram, prompt), respond, None);
      && calls == run.calls
      && (run.outcome.Answered? ==> response == Generated(run.outcome.text))
      && (run.outcome.Failed? && isSequenceDiagram ==> response == SequenceFallback(info.width, info.height))
      && (run.outcome.Failed? && !isSequenceDiagram ==> response == MetadataFallback(FallbackReport.BasicReport(info, fileName)))
  {
    var detected := Classifier.DetectSequenceDiagram(info.width, info.height, fileName);
    var classification := Classifier.ApplyPromptOverride(detected, prompt);
    var isSequenceDiagram := classification.Positive?;
    var outcome;
    outcome, calls := RemoteCaller.AnalyzeRemotely(RemoteCaller.CandidateModels, isSequenceDiagram, prompt, respond);
    if outcome.Answered? {
      response := Generated(outcome.text);
    } else if isSequenceDiagram {
      response := SequenceFallback(info.width, info.height);
    } else {
      var report := FallbackReport.BuildReport(info, fileName);
      response := MetadataFallback(report);
    }
  }

  // ---------------------------------------------------------------------
  // The download

  const DownloadPrefix: string := "image_analysis_"
  const DownloadSuffix: string := ".txt"

  /** The name the result is downloaded under. */
  function DownloadFileName(uploadName: string): string
  {
    DownloadPrefix + uploadName + DownloadSuffix
  }

  /** The upload's name is recovered from the download's name, so different
      uploads are downloaded under different names. */
  lemma DownloadFileNameRecovers(uploadName: string)
    ensures var d := DownloadFileName(uploadName);
      |d| == |uploadName| + 19
      && d[..15] == "image_analysis_"
      && d[|d| - 4..] == ".txt"
      && d[15..|d| - 4] == uploadName
  {
    var d := DownloadFileName(uploadName);
    assert |DownloadPrefix| == 15 && |DownloadSuffix| == 4;
    assert d[..15] == DownloadPrefix;
    assert d[|d| - 4..] == DownloadSuffix;
    assert d[15..|d| - 4] == uploadName;
  }

  lemma DownloadFileNameInjective(a: string, b: string)
    requires DownloadFileName(a) == DownloadFileName(b)
    ensures a == b
  {
    DownloadFileNameRecovers(a);
    DownloadFileNameRecovers(b);
  }
}

=== FILE: classifier.dfy ===
/** The sequence-diagram heuristic: a classification from the upload's file
    name and the image's dimensions, and the override by keywords found in
    the user's prompt. */
module Classifier {
  import opened Text
  import Ratio

  /** Substrings of the lower-cased file name that mark a sequence diagram. */
  const FilenameKeywords: seq<string> :=
    ["sequence", "seq", "interaction", "collaboration", "message flow", "uml", "system flow", "process flow"]

  /** Substrings of the lower-cased prompt that mark a sequence diagram. */
  const PromptKeywords: seq<string> :=
    ["sequence", "lifeline", "message", "participant", "actor", "interaction", "uml", "diagram"]

  /** The prompt keywords are their own lower-case forms. */
  lemma PromptKeywordsLowerCase(k: nat)
    requires k < |PromptKeywords|
    ensures Lower(PromptKeywords[k]) == PromptKeywords[k]
  {
    var keyword := PromptKeywords[k];
    assert forall i :: 0 <= i < |keyword| ==> 'a' <= keyword[i] <= 'z';
    LowerOfLowerCase(keyword);
  }

  /** Why an image was classified as a sequence diagram. */
  datatype Reason = FilenameHint | WideFormat | TechnicalFormat | PromptHint

  function ReasonText(r: Reason): string
  {
    match r
    case FilenameHint => "Filename suggests sequence diagram"
    case WideFormat => "Wide format typical of sequence diagrams"
    case TechnicalFormat => "Format suggests technical diagram"
    case PromptHint => "User prompt suggests sequence diagram"
  }

  /** The pair `(is_sequence_diagram, reason)`; a negative result has no reason. */
  datatype Classification = Positive(reason: Reason) | Negative

  /** `file_name.lower() if file_name else ""`. */
  function LowerFileName(fileName: Option<string>): string
  {
    match fileName
    case None => ""
    case Some(name) => Lower(name)
  }

  predicate FilenameSuggests(fileName: Option<string>)
  {
    ContainsAny(LowerFileName(fileName), FilenameKeywords)
  }

  predicate PromptSuggests(prompt: string)
  {
    ContainsAny(Lower(prompt), PromptKeywords)
  }

  /** `detect_sequence_diagram`: the file name is checked first; otherwise a
      wide image that is more than 200 pixels high, or a somewhat wide image
      that is more than 150 pixels high, is taken for a sequence diagram, the
      first rule taking precedence. */
  function DetectSequenceDiagram(width: nat, height: nat, fileName: Option<string>): (c: Classification)
    ensures FilenameSuggests(fileName) ==> c == Positive(FilenameHint)
    ensures !FilenameSuggests(fileName) ==>
      (c.Positive? <==> height > 0 && ((2 * width > 3 * height && height > 200) || (5 * width > 6 * height && height > 150)))
    ensures c == Positive(WideFormat) <==>
      !FilenameSuggests(fileName) && height > 200 && 2 * width > 3 * height
    ensures c == Positive(TechnicalFormat) <==>
      !FilenameSuggests(fileName) && !(height > 200 && 2 * width > 3 * height) && height > 150 && 5 * width > 6 * height
    ensures c != Positive(PromptHint)
  {
    Ratio.CrossMultiplied(width, height);
    if FilenameSuggests(fileName) then Positive(FilenameHint)
    else if Ratio.Wide(width, height) && height > 200 then Positive(WideFormat)
    else if Ratio.SomewhatWide(width, height) && height > 150 then Positive(TechnicalFormat)
    else Negative
  }

  /** The override in `analyze_image`: a prompt keyword turns a negative
      classification positive; a positive one is kept with its reason. */
  function ApplyPromptOverride(c: Classification, prompt: string): (r: Classification)
    ensures r.Positive? <==> c.Positive? || PromptSuggests(prompt)
    ensures c.Positive? ==> r == c
    ensures r != c ==> r == Positive(PromptHint)
  {
    if PromptSuggests(prompt) && !c.Positive? then Positive(PromptHint) else c
  }

  /** The classification `analyze_image` acts on. */
  function Classify(width: nat, height: nat, fileName: Option<string>, prompt: string): (c: Classification)
    ensures c.Positive? <==> DetectSequenceDiagram(width, height, fileName).Positive? || PromptSuggests(prompt)
  {
    ApplyPromptOverride(DetectSequenceDiagram(width, height, fileName), prompt)
  }

  /** "seq" is one of the file-name keywords, so every name that contains
      "sequence" (or any other text containing "seq") is recognised by it. */
  lemma SeqSubsumesSequence(s: string)
    requires Contains(s, "sequence")
    ensures Contains(s, "seq")
  {
    ContainsSubstring(s, "sequence", 0, 3);
    assert "sequence"[0..3] == "seq";
  }

  /** A file name with a keyword in it is classified positive for that reason,
      whatever the dimensions. */
  lemma FilenameKeywordWins(name: string, k: nat, width: nat, height: nat)
    requires k < |FilenameKeywords|
    requires Contains(Lower(name), FilenameKeywords[k])
    ensures DetectSequenceDiagram(width, height, Some(name)) == Positive(FilenameHint)
  {
    assert FilenameSuggests(Some(name));
  }

  /** A file name with "sequence" in it is a sequence diagram whatever its
      dimensions, even a square image. */
  lemma SequenceFileName(before: string, after: string, width: nat, height: nat)
    ensures DetectSequenceDiagram(width, height, Some(before + "sequence" + after)) == Positive(FilenameHint)
  {
    var name := before + "sequence" + after;
    LowerAppend(before + "sequence", after);
    LowerAppend(before, "sequence");
    LowerOfLowerCase("sequence");
    ContainsAt("sequence", "sequence", 0);
    ContainsInMiddle(Lower(before), "sequence", Lower(after), "sequence");
    SeqSubsumesSequence(Lower(name));
    FilenameKeywordWins(name, 1, width, height);
  }

  /** Boundaries of the shape rules: height 200 is never enough for the wide
      rule, height 0 (ratio 1) never classifies positive, and the exact
      boundary examples. */
  lemma ShapeBoundaries(width: nat)
    ensures DetectSequenceDiagram(width, 200, None) != Positive(WideFormat)
    ensures DetectSequenceDiagram(width, 0, None) == Negative
    ensures DetectSequenceDiagram(304, 201, None) == Positive(WideFormat)
    ensures DetectSequenceDiagram(301, 201, None) == Positive(TechnicalFormat)
    ensures DetectSequenceDiagram(300, 200, None) == Positive(TechnicalFormat)
    ensures DetectSequenceDiagram(240, 200, None) == Negative
    ensures DetectSequenceDiagram(1000, 150, None) == Negative
  {
    assert !FilenameSuggests(None) by {
      assert LowerFileName(None) == "";
      forall i | 0 <= i < |FilenameKeywords| ensures !Contains("", FilenameKeywords[i]) {
        assert FilenameKeywords[i] != [];
      }
    }
  }

  /** The override never downgrades: a positive classification stays positive
      with the same reason, whatever the prompt. */
  lemma OverrideNeverDowngrades(width: nat, height: nat, fileName: Option<string>, prompt: string)
    requires DetectSequenceDiagram(width, height, fileName).Positive?
    ensures Classify(width, height, fileName, prompt) == DetectSequenceDiagram(width, height, fileName)
  {
  }

  /** A prompt mentioning a diagram makes any image a sequence diagram; on a
      negative classification the reason is the prompt. */
  lemma DiagramPromptForces(width: nat, height: nat, fileName: Option<string>, prompt: string, k: nat)
    requires k < |PromptKeywords|
    requires Contains(Lower(prompt), PromptKeywords[k])
    ensures Classify(width, height, fileName, prompt).Positive?
    ensures !DetectSequenceDiagram(width, height, fileName).Positive? ==>
      Classify(width, height, fileName, prompt) == Positive(PromptHint)
  {
    assert PromptSuggests(prompt);
  }
}

=== FILE: fallback_report.dfy ===
/** The offline report `analyze_image` falls back to when no model answered
    and the image was not taken for a sequence diagram: orientation, size
    category, colour-mode description, file type, compression, bit depth,
    the recommendation list and its rendering, and the usage suggestions,
    all computed from the image's width, height, mode and format and the
    upload's file name. */
module FallbackReport {
  import opened Text
  import Ratio

  /** What the report reads from the image. `format` is `None` for an image
      the library created itself; `bits` is `None` when the image has no
      `bits` attribute. */
  datatype ImageInfo = ImageInfo(width: nat, height: nat, mode: string, format: Option<string>, bits: Option<nat>)

  // ---------------------------------------------------------------------
  // Orientation

  datatype Orientation = Landscape | Portrait | Square

  function OrientationOf(width: nat, height: nat): (o: Orientation)
    ensures o == Landscape <==> width > height
    ensures o == Portrait <==> height > width
    ensures o == Square <==> width == height
  {
    if width > height then Landscape
    else if height > width then Portrait
    else Square
  }

  function Turned(o: Orientation): Orientation
  {
    match o
    case Landscape => Portrait
    case Portrait => Landscape
    case Square => Square
  }

  /** Rotating an image by a quarter turn swaps landscape and portrait and
      keeps a square image square. */
  lemma OrientationOfTurned(width: nat, height: nat)
    ensures OrientationOf(height, width) == Turned(OrientationOf(width, height))
  {
  }

  // ---------------------------------------------------------------------
  // Size category

  datatype SizeCategory = Small | Medium | Large | VeryLarge

  /** 640 x 480, 1920 x 1080 and 4 x 1024 x 1024 pixels. */
  const SmallLimit: nat := 640 * 480
  const MediumLimit: nat := 1920 * 1080
  const LargeLimit: nat := 4 * 1024 * 1024

  /** The category of an image with `pixels` pixels; every bound is strict. */
  function SizeCategoryOf(pixels: nat): (c: SizeCategory)
    ensures c == Small <==> pixels < 307200
    ensures c == Medium <==> 307200 <= pixels < 2073600
    ensures c == Large <==> 2073600 <= pixels < 4194304
    ensures c == VeryLarge <==> 4194304 <= pixels
  {
    if pixels < SmallLimit then Small
    else if pixels < MediumLimit then Medium
    else if pixels < LargeLimit then Large
    else VeryLarge
  }

  function SizeRank(c: SizeCategory): nat
  {
    match c
    case Small => 0
    case Medium => 1
    case Large => 2
    case VeryLarge => 3
  }

  /** More pixels never give a smaller category. */
  lemma SizeCategoryMonotone(p: nat, q: nat)
    requires p <= q
    ensures SizeRank(SizeCategoryOf(p)) <= SizeRank(SizeCategoryOf(q))
  {
  }

  /** A full-HD image sits exactly on the Medium/Large boundary, so it is
      Large, and a VGA image is Medium. */
  lemma SizeBoundaries()
    ensures SizeCategoryOf(1920 * 1080) == Large
    ensures SizeCategoryOf(1919 * 1080) == Medium
    ensures SizeCategoryOf(640 * 480) == Medium
    ensures SizeCategoryOf(639 * 480) == Small
    ensures SizeCategoryOf(2048 * 2048) == VeryLarge
  {
  }

  // ---------------------------------------------------------------------
  // Colour mode

  /** `mode_descriptions`. */
  const ModeDescriptions: map<string, string> := map[
    "RGB" := "Color image (Red, Green, Blue)",
    "RGBA" := "Color image with transparency",
    "L" := "Grayscale (Black and White)",
    "P" := "Palette-based color",
    "CMYK" := "CMYK color (for printing)",
    "HSV" := "HSV color space"
  ]

  const UnknownModePrefix: string := "Unknown mode: "

  /** `mode_descriptions.get(mode, f'Unknown mode: {mode}')`. */
  function ColorInfo(mode: string): (r: string)
    ensures mode in ModeDescriptions ==> r == ModeDescriptions[mode]
    ensures mode !in ModeDescriptions ==> r == UnknownModePrefix + mode
  {
    if mode in ModeDescriptions then ModeDescriptions[mode] else UnknownModePrefix + mode
  }

  /** No known description starts with the letter the unknown-mode text
      starts with. */
  lemma KnownDescriptionsStartOtherwise(mode: string)
    requires mode in ModeDescriptions
    ensures ModeDescriptions[mode] != [] && ModeDescriptions[mode][0] != 'U'
  {
  }

  /** No two modes share a description: the six known descriptions are
      distinct, none of them starts like the unknown-mode text, and the
      unknown-mode text repeats the mode. */
  lemma ColorInfoInjective(m1: string, m2: string)
    requires ColorInfo(m1) == ColorInfo(m2)
    ensures m1 == m2
  {
    var p := UnknownModePrefix;
    if m1 in ModeDescriptions && m2 in ModeDescriptions {
    } else if m1 !in ModeDescriptions && m2 !in ModeDescriptions {
      assert p + m1 == p + m2;
      assert m1 == (p + m1)[|p|..];
      assert m2 == (p + m2)[|p|..];
    } else {
      var known := if m1 in ModeDescriptions then m1 else m2;
      var unknown := if m1 in ModeDescriptions then m2 else m1;
      KnownDescriptionsStartOtherwise(known);
    }
  }

  // ---------------------------------------------------------------------
  // Recommendations

  const TransparentNote: string := "Has transparent background"
  const MonochromeNote: string := "Black and white image"
  const PrintNote: string := "Optimized for printing"
  const WideNote: string := "Wide panoramic format"
  const TallNote: string := "Tall vertical format"
  const SquareNote: string := "Square format"

  /** The entry the colour mode contributes, if any. */
  function ModeRecommendation(mode: string): Option<string>
  {
    if mode == "RGBA" then Some(TransparentNote)
    else if mode == "L" then Some(MonochromeNote)
    else if mode == "CMYK" then Some(PrintNote)
    else None
  }

  /** The entry the shape contributes, if any: wide, then tall, then the
      square band, the first that applies. */
  function ShapeRecommendation(width: nat, height: nat): Option<string>
  {
    if Ratio.Wide(width, height) then Some(WideNote)
    else if Ratio.Tall(width, height) then Some(TallNote)
    else if Ratio.NearSquare(width, height) then Some(SquareNote)
    else None
  }

  function Entries(o: Option<string>): seq<string>
  {
    match o
    case None => []
    case Some(s) => [s]
  }

  /** The recommendation list: the mode entry, then the shape entry. */
  function Recommendations(mode: string, width: nat, height: nat): seq<string>
  {
    Entries(ModeRecommendation(mode)) + Entries(ShapeRecommendation(width, height))
  }

  /** The recommendation list in full: at most one mode entry followed by at
      most one shape entry, each present exactly when its condition holds. */
  lemma RecommendationsContents(mode: string, width: nat, height: nat)
    ensures var recs := Recommendations(mode, width, height);
      && |recs| <= 2
      && (TransparentNote in recs <==> mode == "RGBA")
      && (MonochromeNote in recs <==> mode == "L")
      && (PrintNote in recs <==> mode == "CMYK")
      && (WideNote in recs <==> Ratio.Wide(width, height))
      && (TallNote in recs <==> Ratio.Tall(width, height))
      && (SquareNote in recs <==> Ratio.NearSquare(width, height))
      && (recs != [] && (mode == "RGBA" || mode == "L" || mode == "CMYK") ==>
            recs[0] in {TransparentNote, MonochromeNote, PrintNote})
      && (recs == [] <==>
            mode !in {"RGBA", "L", "CMYK"} && !Ratio.Wide(width, height)
            && !Ratio.Tall(width, height) && !Ratio.NearSquare(width, height))
  {
    Ratio.Bands(width, height);
  }

  /** The list as the source builds it, one `append` at a time. */
  method BuildRecommendations(mode: string, width: nat, height: nat) returns (recs: seq<string>)
    ensures recs == Recommendations(mode, width, height)
  {
    recs := [];
    if mode == "RGBA" {
      recs := recs + [TransparentNote];
    } else if mode == "L" {
      recs := recs + [MonochromeNote];
    } else if mode == "CMYK" {
      recs := recs + [PrintNote];
    }
    if Ratio.Wide(width, height) {
      recs := recs + [WideNote];
    } else if Ratio.Tall(width, height) {
      recs := recs + [TallNote];
    } else if Ratio.NearSquare(width, height) {
      recs := recs + [SquareNote];
    }
  }

  // ---------------------------------------------------------------------
  // The "Features & Recommendations" lines

  const BulletMark: string := "- ✅ "
  const StandardLine: string := "- Standard image format\n"

  function Bullet(rec: string): string
  {
    BulletMark + rec + "\n"
  }

  /** One bullet line per recommendation, in order. */
  function Bullets(recs: seq<string>): string
  {
    if recs == [] then "" else Bullet(recs[0]) + Bullets(recs[1..])
  }

  /** The section body: the bullets, or the single standard line when there
      is no recommendation. */
  function FeaturesText(recs: seq<string>): string
  {
    if recs == [] then StandardLine else Bullets(recs)
  }

  /** Appending a recommendation appends its bullet. */
  lemma {:induction false} BulletsSnoc(recs: seq<string>, rec: string)
    ensures Bullets(recs + [rec]) == Bullets(recs) + Bullet(rec)
  {
    if recs == [] {
      assert recs + [rec] == [rec];
    } else {
      assert (recs + [rec])[1..] == recs[1..] + [rec];
      BulletsSnoc(recs[1..], rec);
    }
  }

  /** The section as the source builds it with `+=`, one line per pass. */
  method RenderFeatures(recs: seq<string>) returns (text: string)
    ensures text == FeaturesText(recs)
  {
    text := "";
    if recs != [] {
      for i := 0 to |recs|
        invariant text == Bullets(recs[..i])
      {
        BulletsSnoc(recs[..i], recs[i]);
        assert recs[..i + 1] == recs[..i] + [recs[i]];
        text := text + Bullet(recs[i]);
      }
      assert recs[..|recs|] == recs;
    } else {
      text := text + StandardLine;
    }
  }

  predicate NoNewline(s: string)
  {
    forall i :: 0 <= i < |s| ==> s[i] != '\n'
  }

  /** The index of the first newline of `s`, or `|s|` if there is none. */
  function LineEnd(s: string): (k: nat)
    ensures k <= |s| && NoNewline(s[..k])
    ensures k < |s| ==> s[k] == '\n'
  {
    if s == [] || s[0] == '\n' then 0
    else
      var k := 1 + LineEnd(s[1..]);
      assert s[..k] == [s[0]] + s[1..][..k - 1];
      k
  }

  /** Reads the section body back into the recommendation list. */
  function ParseBullets(text: string): Option<seq<string>>
    decreases |text|
  {
    if text == [] then Some([])
    else if |text| < |BulletMark| || text[..|BulletMark|] != BulletMark then None
    else
      var body := text[|BulletMark|..];
      var k := LineEnd(body);
      if k == |body| then None
      else
        match ParseBullets(body[k + 1..])
        case None => None
        case Some(rest) => Some([body[..k]] + rest)
  }

  function ParseFeatures(text: string): Option<seq<string>>
  {
    if text == StandardLine then Some([]) else ParseBullets(text)
  }

  lemma {:induction false} LineEndOfBullet(rec: string, rest: string)
    requires NoNewline(rec)
    ensures LineEnd(rec + "\n" + rest) == |rec|
  {
    if rec != [] {
      assert (rec + "\n" + rest)[1..] == rec[1..] + "\n" + rest;
      LineEndOfBullet(rec[1..], rest);
    }
  }

  lemma {:induction false} ParseBulletsRoundTrip(recs: seq<string>)
    requires forall i :: 0 <= i < |recs| ==> NoNewline(recs[i])
    ensures ParseBullets(Bullets(recs)) == Some(recs)
  {
    if recs != [] {
      var text := Bullets(recs);
      var rest := Bullets(recs[1..]);
      assert text == BulletMark + (recs[0] + "\n" + rest);
      var body := recs[0] + "\n" + rest;
      assert text[..|BulletMark|] == BulletMark;
      assert text[|BulletMark|..] == body;
      LineEndOfBullet(recs[0], rest);
      assert body[..|recs[0]|] == recs[0];
      assert body[|recs[0]| + 1..] == rest;
      ParseBulletsRoundTrip(recs[1..]);
      assert [recs[0]] + recs[1..] == recs;
    }
  }

  /** The rendered section determines the recommendation list, as long as no
      recommendation spans a line (none of the six does). */
  lemma FeaturesRoundTrip(recs: seq<string>)
    requires forall i :: 0 <= i < |recs| ==> NoNewline(recs[i])
    ensures ParseFeatures(FeaturesText(recs)) == Some(recs)
  {
    if recs == [] {
    } else {
      assert Bullets(recs)[..|BulletMark|] == BulletMark;
      assert Bullets(recs)[2] == '✅';
      assert StandardLine[2] == 'S';
      ParseBulletsRoundTrip(recs);
    }
  }

  // ---------------------------------------------------------------------
  // Format-dependent lines

  datatype Compression = Lossless | Lossy

  /** Lossless exactly for PNG, BMP and TIFF; an unknown format is lossy. */
  function CompressionOf(format: Option<string>): (c: Compression)
    ensures c == Lossless <==> format.Some? && format.value in {"PNG", "BMP", "TIFF"}
  {
    match format
    case Some(f) => if f in ["PNG", "BMP", "TIFF"] then Lossless else Lossy
    case None => Lossy
  }

  /** `image.format or 'Unknown'`: a missing or empty format reads "Unknown". */
  function FormatLabel(format: Option<string>): (r: string)
    ensures r == "Unknown" <==> format == None || format == Some("") || format == Some("Unknown")
    ensures r != "" && (format.Some? && format.value != "" ==> r == format.value)
  {
    match format
    case Some(f) => if f == "" then "Unknown" else f
    case None => "Unknown"
  }

  /** `str(image.format)`, printed after the compression label: a missing
      format reads "None", unlike the "File Format" line. */
  function RawFormat(format: Option<string>): (r: string)
    ensures r == "None" <==> format == None || format == Some("None")
    ensures format.Some? ==> r == format.value
  {
    match format
    case Some(f) => f
    case None => "None"
  }

  /** The two lines name a missing format differently, and the compression
      line tells apart formats the "File Format" line merges. */
  lemma FormatLinesDiffer()
    ensures FormatLabel(None) == FormatLabel(Some("")) == FormatLabel(Some("Unknown")) == "Unknown"
    ensures RawFormat(None) == "None" && RawFormat(Some("")) == "" && RawFormat(Some("Unknown")) == "Unknown"
  {
  }

  /** The "Perfect for" suggestion. */
  function PerfectFor(format: Option<string>): string
  {
    if format == Some("PNG") then "Web display and digital use"
    else if format == Some("JPEG") then "Photographs and images"
    else if format == Some("TIFF") || format == Some("BMP") then "High-quality prints"
    else "General use"
  }

  /** Every lossless format is suggested for the web or for prints, and every
      other format but JPEG for general use. */
  lemma PerfectForMatchesCompression(format: Option<string>)
    ensures CompressionOf(format) == Lossless <==>
      PerfectFor(format) in {"Web display and digital use", "High-quality prints"}
    ensures PerfectFor(format) == "General use" <==>
      CompressionOf(format) == Lossy && format != Some("JPEG")
  {
  }

  /** The "Aspect ratio" suggestion: wide, tall, or otherwise square. */
  function AspectAdvice(width: nat, height: nat): (r: string)
    ensures r == "Versatile square format" <==> !Ratio.Wide(width, height) && !Ratio.Tall(width, height)
  {
    if Ratio.Wide(width, height) then "Great for wallpapers/wide displays"
    else if Ratio.Tall(width, height) then "Great for portraits/mobile"
    else "Versatile square format"
  }

  /** The advice calls any ratio between 0.7 and 1.5 square, so an image can
      get the square advice without the "Square format" recommendation. */
  lemma SquareAdviceIsBroader(width: nat, height: nat)
    ensures Ratio.NearSquare(width, height) ==> AspectAdvice(width, height) == "Versatile square format"
    ensures AspectAdvice(4, 3) == "Versatile square format" && ShapeRecommendation(4, 3) == None
  {
    Ratio.Bands(width, height);
  }

  /** `image.bits if hasattr(image, 'bits') and image.bits else 'Unknown'`. */
  function BitDepth(bits: Option<nat>): (r: string)
    ensures r == "Unknown" <==> bits == None || bits == Some(0)
    ensures bits.Some? && bits.value > 0 ==> AllDigits(r)
  {
    match bits
    case Some(b) => if b == 0 then "Unknown" else Decimal(b)
    case None => "Unknown"
  }

  // ---------------------------------------------------------------------
  // Likely file type

  /** The extension lists; only membership in them matters. */
  const PhotoExtensions: set<string> := {".jpg", ".jpeg", ".png", ".gif", ".bmp"}
  const VectorExtensions: set<string> := {".svg", ".ico"}
  const PhotoshopExtensions: set<string> := {".psd"}
  const ProfessionalExtensions: set<string> := {".tiff", ".tif"}

  const PhotoType: string := "Photograph or Digital Image"
  const VectorType: string := "Vector Graphic or Icon"
  const PhotoshopType: string := "Photoshop Document"
  const ProfessionalType: string := "Professional/High-Quality Image"
  const GenericType: string := "Image File"

  /** The type the lists assign to `key`, checked in order. */
  function TypeOfExtension(key: string): string
  {
    if key in PhotoExtensions then PhotoType
    else if key in VectorExtensions then VectorType
    else if key in PhotoshopExtensions then PhotoshopType
    else if key in ProfessionalExtensions then ProfessionalType
    else GenericType
  }

  /** `likely_type` as written: the whole lower-cased file name is looked up
      in the extension lists. */
  function LikelyTypeAsWritten(fileName: Option<string>): string
  {
    match fileName
    case None => GenericType
    case Some(name) => TypeOfExtension(Lower(name))
  }

  /** As written, a specific type is reported only for a file whose whole
      name is an extension, such as ".jpg": a name longer than five
      characters, or one that does not start with a dot, always gets the
      generic type. */
  lemma LikelyTypeAsWrittenIgnoresNames(name: string)
    requires |name| > 5 || (name != [] && name[0] != '.')
    ensures LikelyTypeAsWritten(Some(name)) == GenericType
  {
  }

  /** The discrepancy: an ordinary JPEG upload is reported as a generic image
      file, while its extension marks it as a photograph. */
  lemma LikelyTypeAsWrittenMissesExtension()
    ensures LikelyTypeAsWritten(Some("photo.jpg")) == GenericType
  {
    LikelyTypeAsWrittenIgnoresNames("photo.jpg");
  }

  /** The index of the last dot of `s`, if any. */
  function LastDot(s: string): (k: Option<nat>)
    ensures k.Some? ==>
      (k.value < |s| && s[k.value] == '.' && forall j :: k.value < j < |s| ==> s[j] != '.')
    ensures k.None? ==> forall j :: 0 <= j < |s| ==> s[j] != '.'
  {
    if s == [] then None
    else if s[|s| - 1] == '.' then Some(|s| - 1)
    else LastDot(s[..|s| - 1])
  }

  /** The extension of a file name, dot included, as `os.path.splitext`
      takes it: from the last dot on, unless only dots precede that dot. */
  function Extension(name: string): string
  {
    match LastDot(name)
    case None => ""
    case Some(k) => if exists j :: 0 <= j < k && name[j] != '.' then name[k..] else ""
  }

  /** `likely_type` as its variable name `file_ext_lower` says it was meant:
      the lower-cased extension of the file name is looked up. The report
      itself keeps the lookup as written. */
  function LikelyType(fileName: Option<string>): string
  {
    match fileName
    case None => GenericType
    case Some(name) => TypeOfExtension(Lower(Extension(name)))
  }

  /** A name made of a stem without dots and a dotted extension has exactly
      that extension. */
  lemma ExtensionOfName(stem: string, ext: string)
    requires stem != [] && forall j :: 0 <= j < |stem| ==> stem[j] != '.'
    requires ext != [] && ext[0] == '.' && forall j :: 0 < j < |ext| ==> ext[j] != '.'
    ensures Extension(stem + ext) == ext
  {
    var name := stem + ext;
    var k := LastDot(name);
    assert name[|stem|] == '.';
    assert k.Some? && k.value == |stem|;
    assert name[0] == stem[0] != '.';
    assert name[|stem|..] == ext;
  }

  /** With the extension taken from the name, the ordinary JPEG upload is a
      photograph. */
  lemma LikelyTypeOfJpegUpload()
    ensures LikelyType(Some("photo.jpg")) == PhotoType
  {
    ExtensionOfName("photo", ".jpg");
    assert "photo" + ".jpg" == "photo.jpg";
    assert Lower(".jpg") == ".jpg";
  }

  // ---------------------------------------------------------------------
  // The report

  /** The computed fields of the report; the prose around them is fixed. */
  datatype Report = Report(
    width: nat,
    height: nat,
    pixels: nat,
    orientation: Orientation,
    sizeCategory: SizeCategory,
    fileFormat: string,
    colorMode: string,
    fileType: string,
    compression: Compression,
    typicalFor: string,
    bitDepth: string,
    features: string,
    perfectFor: string,
    aspectAdvice: string)

  function BasicReport(info: ImageInfo, fileName: Option<string>): Report
  {
    Report(
      info.width, info.height, info.width * info.height,
      OrientationOf(info.width, info.height),
      SizeCategoryOf(info.width * info.height),
      FormatLabel(info.format),
      ColorInfo(info.mode),
      LikelyTypeAsWritten(fileName),
      CompressionOf(info.format),
      RawFormat(info.format),
      BitDepth(info.bits),
      FeaturesText(Recommendations(info.mode, info.width, info.height)),
      PerfectFor(info.format),
      AspectAdvice(info.width, info.height))
  }

  /** The report as the source assembles it: the list built by appends, the
      section built line by line. */
  method BuildReport(info: ImageInfo, fileName: Option<string>) returns (report: Report)
    ensures report == BasicReport(info, fileName)
  {
    var recs := BuildRecommendations(info.mode, info.width, info.height);
    var features := RenderFeatures(recs);
    report := Report(
      info.width, info.height, info.width * info.height,
      OrientationOf(info.width, info.height),
      SizeCategoryOf(info.width * info.height),
      FormatLabel(info.format),
      ColorInfo(info.mode),
      LikelyTypeAsWritten(fileName),
      CompressionOf(info.format),
      RawFormat(info.format),
      BitDepth(info.bits),
      features,
      PerfectFor(info.format),
      AspectAdvice(info.width, info.height));
  }

  /** The report follows the type lookup as written: an ordinary JPEG
      upload is reported as a generic image file. */
  lemma ReportTypeOfJpegUpload(info: ImageInfo)
    ensures BasicReport(info, Some("photo.jpg")).fileType == GenericType
  {
    LikelyTypeAsWrittenMissesExtension();
  }

  /** The report on a full-HD RGB PNG, whatever its name: landscape, Large,
      lossless, suggested for the web, with the wide-format recommendation
      as its only bullet. */
  lemma FullHdPngReport(fileName: Option<string>)
    ensures var r := BasicReport(ImageInfo(1920, 1080, "RGB", Some("PNG"), None), fileName);
      && r.orientation == Landscape && r.sizeCategory == Large && r.compression == Lossless
      && r.fileFormat == "PNG" && r.perfectFor == "Web display and digital use"
      && r.features == Bullet(WideNote) && r.bitDepth == "Unknown"
  {
    Ratio.CrossMultiplied(1920, 1080);
    assert Recommendations("RGB", 1920, 1080) == [WideNote];
    assert Bullets([WideNote]) == Bullet(WideNote);
  }

  /** The report on a 1000 x 800 RGB image the library created itself: no
      recommendation, so the standard line; unknown format, so lossy; a ratio
      of 1.25, so the square advice. */
  lemma PlainRgbReport(fileName: Option<string>)
    ensures var r := BasicReport(ImageInfo(1000, 800, "RGB", None, None), fileName);
      && r.features == StandardLine && r.fileFormat == "Unknown" && r.compression == Lossy
      && r.typicalFor == "None"
      && r.aspectAdvice == "Versatile square format"
  {
    Ratio.CrossMultiplied(1000, 800);
    assert Recommendations("RGB", 1000, 800) == [];
  }
}

=== FILE: ratio.dfy ===
/** The aspect ratio `width / height` of an image, with the convention that
    an image of height 0 has ratio 1. Every threshold the application
    compares the ratio against is a fraction `p / q`, so each comparison is
    decided exactly by cross-multiplying, and `Thresholds` proves that this
    agrees with comparing the real ratio. */
module Ratio {

  /** `width / height if height > 0 else 1`, as a real number. */
  function AspectRatio(width: nat, height: nat): real
  {
    if height > 0 then width as real / height as real else 1.0
  }

  /** `aspect_ratio > p / q`. */
  predicate Above(width: nat, height: nat, p: nat, q: nat)
    requires q > 0
  {
    if height > 0 then width * q > p * height else q > p
  }

  /** `aspect_ratio < p / q`. */
  predicate Below(width: nat, height: nat, p: nat, q: nat)
    requires q > 0
  {
    if height > 0 then width * q < p * height else q < p
  }

  /** `p / q <= aspect_ratio`. */
  predicate AtLeast(width: nat, height: nat, p: nat, q: nat)
    requires q > 0
  {
    !Below(width, height, p, q)
  }

  /** `aspect_ratio <= p / q`. */
  predicate AtMost(width: nat, height: nat, p: nat, q: nat)
    requires q > 0
  {
    !Above(width, height, p, q)
  }

  /** `aspect_ratio > 1.5`: the wide threshold of both the classifier and the
      report. */
  predicate Wide(width: nat, height: nat)
  {
    Above(width, height, 3, 2)
  }

  /** `aspect_ratio > 1.2`: the classifier's "somewhat wide" threshold. */
  predicate SomewhatWide(width: nat, height: nat)
  {
    Above(width, height, 6, 5)
  }

  /** `aspect_ratio < 0.7`: the report's tall threshold. */
  predicate Tall(width: nat, height: nat)
  {
    Below(width, height, 7, 10)
  }

  /** `0.9 <= aspect_ratio <= 1.1`: the report's square band. */
  predicate NearSquare(width: nat, height: nat)
  {
    AtLeast(width, height, 9, 10) && AtMost(width, height, 11, 10)
  }

  /** Multiplying both sides by a positive real keeps a strict order. */
  lemma ScaleStrict(a: real, b: real, c: real)
    requires c > 0.0
    ensures a > b <==> a * c > b * c
    ensures a < b <==> a * c < b * c
  {
    if a > b { assert (a - b) * c > 0.0; }
    if a * c > b * c { assert (a - b) * c > 0.0; }
    if a < b { assert (b - a) * c > 0.0; }
    if a * c < b * c { assert (b - a) * c > 0.0; }
  }

  /** The cross-multiplied test is the comparison of the real ratio. */
  lemma AboveIsRatio(width: nat, height: nat, p: nat, q: nat)
    requires q > 0
    ensures Above(width, height, p, q) <==> AspectRatio(width, height) > p as real / q as real
    ensures Below(width, height, p, q) <==> AspectRatio(width, height) < p as real / q as real
  {
    var r := AspectRatio(width, height);
    var t := p as real / q as real;
    var c := (height as real) * (q as real);
    if height > 0 {
      assert c > 0.0;
      ScaleStrict(r, t, c);
      assert r * c == (width * q) as real;
      assert t * c == (p * height) as real;
    } else {
      ScaleStrict(r, t, q as real);
      assert r * (q as real) == q as real;
      assert t * (q as real) == p as real;
    }
  }

  /** The thresholds of `detect_sequence_diagram` and the report, stated on
      the real ratio: wide above 1.5, somewhat wide above 1.2, tall below 0.7
      and square from 0.9 to 1.1 inclusive. */
  lemma Thresholds(width: nat, height: nat)
    ensures Wide(width, height) <==> AspectRatio(width, height) > 1.5
    ensures SomewhatWide(width, height) <==> AspectRatio(width, height) > 1.2
    ensures Tall(width, height) <==> AspectRatio(width, height) < 0.7
    ensures NearSquare(width, height) <==> 0.9 <= AspectRatio(width, height) <= 1.1
  {
    AboveIsRatio(width, height, 3, 2);
    AboveIsRatio(width, height, 6, 5);
    AboveIsRatio(width, height, 7, 10);
    AboveIsRatio(width, height, 9, 10);
    AboveIsRatio(width, height, 11, 10);
  }

  /** The same thresholds in integer form, for positive heights, and the
      default ratio 1 of a zero height: neither wide nor tall, but square. */
  lemma CrossMultiplied(width: nat, height: nat)
    ensures height > 0 ==> (Wide(width, height) <==> 2 * width > 3 * height)
    ensures height > 0 ==> (SomewhatWide(width, height) <==> 5 * width > 6 * height)
    ensures height > 0 ==> (Tall(width, height) <==> 10 * width < 7 * height)
    ensures height > 0 ==> (NearSquare(width, height) <==> 9 * height <= 10 * width <= 11 * height)
    ensures height == 0 ==> !Wide(width, height) && !SomewhatWide(width, height)
    ensures height == 0 ==> !Tall(width, height) && NearSquare(width, height)
  {
  }

  /** The thresholds are ordered: wide implies somewhat wide, and the wide,
      tall and square bands are pairwise disjoint. */
  lemma Bands(width: nat, height: nat)
    ensures Wide(width, height) ==> SomewhatWide(width, height)
    ensures !(Wide(width, height) && Tall(width, height))
    ensures !(Wide(width, height) && NearSquare(width, height))
    ensures !(Tall(width, height) && NearSquare(width, height))
  {
  }
}

=== FILE: remote_caller.dfy ===
/** The candidate-model loop of `analyze_image`: six model identifiers are
    tried in order, each first with the image object and then, after a
    non-terminal error, with the image re-encoded as PNG bytes; the first
    answer wins and some errors end the loop early.

    The remote service is an oracle `respond` from the call made to its
    reply. For a list without repeated models, such as `CandidateModels`,
    no request is made twice in one run, so a function of the request is
    as general as any sequence of replies. */
module RemoteCaller {
  import opened Text

  /** `model_names_to_try`, in order. */
  const CandidateModels: seq<string> := [
    "models/gemini-2.5-flash",
    "models/gemini-2.5-pro",
    "models/gemini-2.0-flash-exp",
    "models/gemini-2.0-flash",
    "models/gemini-flash-latest",
    "models/gemini-pro-latest"
  ]

  /** The instruction sent instead of the user's prompt when the image is
      taken for a sequence diagram. */
  const SpecializedPrompt: string :=
    "This is a UML sequence diagram. Please analyze it in detail and provide:\n"
    + "1. All participants/actors in the diagram\n"
    + "2. The sequence of messages between participants\n"
    + "3. Any conditions, loops, or combined fragments\n"
    + "4. The overall flow and purpose of the interaction\n"
    + "5. Any return messages or synchronous/asynchronous calls\n"
    + "Please be very specific about the text labels and message content."

  /** How the image travels with the prompt: the decoded image object, or the
      image saved as PNG into a byte buffer. */
  datatype Encoding = ImageObject | PngBytes

  /** One `generate_content` request. */
  datatype Call = Call(model: string, encoding: Encoding, prompt: string)

  /** What a request gives back: the response text, or the text of the
      exception it raised. */
  datatype Reply = Answer(text: string) | Raised(message: string)

  /** The last error kept in `api_error`. */
  datatype ApiError =
    | QuotaExceeded(detail: string)
    | ModelUnavailable(model: string)
    | PermissionDenied
    | ModelFailed(model: string, detail: string)

  /** What the loop does after a failed attempt: leave the loop (`break`) or
      carry on, and what it stores in `api_error`. */
  datatype Verdict = Stop(error: ApiError) | Continue(error: ApiError)

  /** How the loop ends: with the text of the first answer, or having fallen
      through with the last stored error (none if no model was tried). */
  datatype Outcome = Answered(text: string) | Failed(apiError: Option<ApiError>)

  predicate MentionsQuota(message: string)
  {
    Contains(Lower(message), "quota") || Contains(Lower(message), "limit")
  }

  predicate MentionsMissing(message: string)
  {
    Contains(Lower(message), "404") || Contains(Lower(message), "not found")
  }

  predicate MentionsPermission(message: string)
  {
    Contains(Lower(message), "permission") || Contains(Lower(message), "forbidden")
  }

  /** The prompt sent with every attempt. */
  function PromptSent(isSequenceDiagram: bool, prompt: string): string
  {
    if isSequenceDiagram then SpecializedPrompt else prompt
  }

  /** The handler of an error raised by the image-object attempt. */
  function FirstAttemptVerdict(model: string, message: string): Verdict
  {
    if MentionsQuota(message) then Stop(QuotaExceeded(message))
    else if MentionsMissing(message) then Continue(ModelUnavailable(model))
    else if MentionsPermission(message) then Stop(PermissionDenied)
    else Continue(ModelFailed(model, message))
  }

  /** The decision table of the image-object handler. The checks run in the
      order quota, not-found, permission, so a message that mentions both a
      quota and a missing model counts as quota, and one that mentions both a
      missing model and a permission problem counts as missing. Quota and
      permission end the loop; anything else goes on to the bytes attempt. */
  lemma FirstAttemptTable(model: string, message: string)
    ensures var v := FirstAttemptVerdict(model, message);
      && (v.Stop? <==> MentionsQuota(message) || (!MentionsMissing(message) && MentionsPermission(message)))
      && (v.error == QuotaExceeded(message) <==> MentionsQuota(message))
      && (v.error == ModelUnavailable(model) <==> !MentionsQuota(message) && MentionsMissing(message))
      && (v.error == PermissionDenied <==>
            !MentionsQuota(message) && !MentionsMissing(message) && MentionsPermission(message))
      && (v.error.ModelFailed? ==> v.error == ModelFailed(model, message))
  {
  }

  /** The handler of an error raised by the bytes attempt. */
  function SecondAttemptVerdict(model: string, message: string): Verdict
  {
    if MentionsQuota(message) then Stop(QuotaExceeded(message))
    else if MentionsMissing(message) then Continue(ModelUnavailable(model))
    else Continue(ModelFailed(model, message))
  }

  /** The decision table of the bytes handler: only quota ends the loop;
      every other error, a permission error included, moves on to the next
      model, and the stored error is never a permission error. */
  lemma SecondAttemptTable(model: string, message: string)
    ensures var v := SecondAttemptVerdict(model, message);
      && (v.Stop? <==> MentionsQuota(message))
      && (v.Stop? ==> v.error == QuotaExceeded(message))
      && (v.error == ModelUnavailable(model) <==> !MentionsQuota(message) && MentionsMissing(message))
      && v.error != PermissionDenied
  {
  }

  /** The verdict on an error raised by call `c`. */
  function AttemptVerdict(c: Call, message: string): Verdict
  {
    if c.encoding == ImageObject then FirstAttemptVerdict(c.model, message)
    else SecondAttemptVerdict(c.model, message)
  }

  /** Request `j` of `calls` failed and its handler carried on. */
  predicate FailedAndContinued(calls: seq<Call>, respond: Call -> Reply, j: nat)
  {
    j < |calls| && respond(calls[j]).Raised? && AttemptVerdict(calls[j], respond(calls[j]).message).Continue?
  }

  /** How the loop body leaves one model: `return` with the response text,
      `break` with the stored error, or on to the next model with it. */
  datatype Exit = Return(text: string) | Break(error: ApiError) | NextModel(error: ApiError)

  /** One iteration of the loop: how it ended and the requests it made. */
  datatype Round = Round(exit: Exit, calls: seq<Call>)

  /** The loop body for one model: the image-object request, then, unless it
      answered or its error was terminal, the bytes request. */
  function TryModel(model: string, sent: string, respond: Call -> Reply): (round: Round)
    ensures 1 <= |round.calls| <= 2
    ensures round.calls[0] == Call(model, ImageObject, sent)
    ensures |round.calls| == 2 ==> round.calls[1] == Call(model, PngBytes, sent)
    ensures |round.calls| == 2 ==> FailedAndContinued(round.calls, respond, 0)
    ensures round.exit.NextModel? ==> |round.calls| == 2
    ensures var c := round.calls[|round.calls| - 1];
      match round.exit
      case Return(text) => respond(c) == Answer(text)
      case Break(error) =>
        respond(c).Raised? && AttemptVerdict(c, respond(c).message) == Stop(error)
      case NextModel(error) =>
        respond(c).Raised? && AttemptVerdict(c, respond(c).message) == Continue(error)
  {
    var first := Call(model, ImageObject, sent);
    match respond(first)
    case Answer(text) => Round(Return(text), [first])
    case Raised(m1) =>
      var v1 := FirstAttemptVerdict(model, m1);
      if v1.Stop? then Round(Break(v1.error), [first])
      else
        var second := Call(model, PngBytes, sent);
        match respond(second)
        case Answer(text) => Round(Return(text), [first, second])
        case Raised(m2) =>
          var v2 := SecondAttemptVerdict(model, m2);
          if v2.Stop? then Round(Break(v2.error), [first, second])
          else Round(NextModel(v2.error), [first, second])
  }

  /** The outcome of a run and the requests it made, in order. */
  datatype Run = Run(outcome: Outcome, calls: seq<Call>)

  /** The loop over `models`, as a recursive specification: `last` is the
      value of `api_error` when the loop reaches the first of `models`. */
  function RunCandidates(models: seq<string>, sent: string, respond: Call -> Reply, last: Option<ApiError>): Run
    decreases |models|
  {
    if models == [] then Run(Failed(last), [])
    else
      var round := TryModel(models[0], sent, respond);
      match round.exit
      case Return(text) => Run(Answered(text), round.calls)
      case Break(error) => Run(Failed(Some(error)), round.calls)
      case NextModel(error) =>
        var rest := RunCandidates(models[1..], sent, respond, Some(error));
        Run(rest.outcome, round.calls + rest.calls)
  }

  /** Every request the loop could make, in order: for each model the
      image-object request and then the bytes request, always with the same
      prompt. */
  function Schedule(models: seq<string>, sent: string): (s: seq<Call>)
    ensures |s| == 2 * |models|
  {
    if models == [] then []
    else [Call(models[0], ImageObject, sent), Call(models[0], PngBytes, sent)] + Schedule(models[1..], sent)
  }

  /** Every scheduled request carries the one prompt chosen before the loop. */
  lemma {:induction false} ScheduleUsesPrompt(models: seq<string>, sent: string)
    ensures forall j :: 0 <= j < |Schedule(models, sent)| ==> Schedule(models, sent)[j].prompt == sent
    decreases |models|
  {
    if models != [] {
      ScheduleUsesPrompt(models[1..], sent);
      var head := [Call(models[0], ImageObject, sent), Call(models[0], PngBytes, sent)];
      var tail := Schedule(models[1..], sent);
      assert Schedule(models, sent) == head + tail;
      forall j | 0 <= j < |Schedule(models, sent)| ensures Schedule(models, sent)[j].prompt == sent {
        if j >= 2 {
          assert Schedule(models, sent)[j] == tail[j - 2];
        }
      }
    }
  }

  /** The requests of a run are a prefix of the schedule, so models are tried
      strictly in list order, image object before bytes, with one prompt
      throughout, and there are at most two requests per model; there is at
      least one request if there is a model. */
  lemma {:induction false} CallsInOrder(models: seq<string>, sent: string, respond: Call -> Reply, last: Option<ApiError>)
    ensures var r := RunCandidates(models, sent, respond, last);
      r.calls <= Schedule(models, sent) && (r.calls == [] <==> models == [])
    decreases |models|
  {
    if models != [] {
      var round := TryModel(models[0], sent, respond);
      var head := [Call(models[0], ImageObject, sent), Call(models[0], PngBytes, sent)];
      var tail := Schedule(models[1..], sent);
      assert Schedule(models, sent) == head + tail;
      if round.exit.NextModel? {
        var rest := RunCandidates(models[1..], sent, respond, Some(round.exit.error));
        CallsInOrder(models[1..], sent, respond, Some(round.exit.error));
        assert var r2 := RunCandidates(models[1..], sent, respond, Some(round.exit.error));
          r2.calls <= Schedule(models[1..], sent);
        assert round.calls == head;
        assert rest.calls <= tail;
        PrefixAppend(head, rest.calls, tail);
      } else {
        assert round.calls <= head;
        PrefixExtend(round.calls, head, tail);
      }
    }
  }

  lemma PrefixAppend(a: seq<Call>, b: seq<Call>, c: seq<Call>)
    requires b <= c
    ensures a + b <= a + c
  {
    assert (a + c)[..|a + b|] == a + c[..|b|];
  }

  lemma PrefixExtend(a: seq<Call>, b: seq<Call>, c: seq<Call>)
    requires a <= b
    ensures a <= b + c
  {
    assert (b + c)[..|a|] == b[..|a|];
  }

  /** Every request of a run but the last failed, and its handler carried
      on. */
  lemma {:induction false} EarlierRequestsFailed(models: seq<string>, sent: string, respond: Call -> Reply, last: Option<ApiError>)
    ensures var r := RunCandidates(models, sent, respond, last);
      forall j :: 0 <= j < |r.calls| - 1 ==> FailedAndContinued(r.calls, respond, j)
    decreases |models|
  {
    if models != [] {
      var round := TryModel(models[0], sent, respond);
      if round.exit.NextModel? {
        var rest := RunCandidates(models[1..], sent, respond, Some(round.exit.error));
        EarlierRequestsFailed(models[1..], sent, respond, Some(round.exit.error));
        assert var r2 := RunCandidates(models[1..], sent, respond, Some(round.exit.error));
          forall j :: 0 <= j < |r2.calls| - 1 ==> FailedAndContinued(r2.calls, respond, j);
        var calls := round.calls + rest.calls;
        assert FailedAndContinued(calls, respond, 0);
        assert calls[1] == round.calls[1];
        assert FailedAndContinued(calls, respond, 1) by {
          assert respond(round.calls[1]).Raised?;
        }
        forall j | 2 <= j < |calls| - 1 ensures FailedAndContinued(calls, respond, j) {
          assert calls[j] == rest.calls[j - 2];
          assert FailedAndContinued(rest.calls, respond, j - 2);
        }
      }
    }
  }

  /** How a run ends, read off its last request: an answer is the text that
      request returned; a failure keeps the error that request raised, as its
      handler recorded it; a run without requests keeps `last`. */
  predicate EndsOnLastRequest(r: Run, respond: Call -> Reply, last: Option<ApiError>)
  {
    if r.calls == [] then r.outcome == Failed(last)
    else
      var c := r.calls[|r.calls| - 1];
      match r.outcome
      case Answered(text) => respond(c) == Answer(text)
      case Failed(error) => respond(c).Raised? && error == Some(AttemptVerdict(c, respond(c).message).error)
  }

  /** Every run ends as its last request decided. */
  lemma {:induction false} RunEndsOnLastRequest(models: seq<string>, sent: string, respond: Call -> Reply, last: Option<ApiError>)
    ensures EndsOnLastRequest(RunCandidates(models, sent, respond, last), respond, last)
    decreases |models|
  {
    if models != [] {
      var round := TryModel(models[0], sent, respond);
      if round.exit.NextModel? {
        var rest := RunCandidates(models[1..], sent, respond, Some(round.exit.error));
        RunEndsOnLastRequest(models[1..], sent, respond, Some(round.exit.error));
        assert EndsOnLastRequest(rest, respond, Some(round.exit.error));
        var calls := round.calls + rest.calls;
        if rest.calls != [] {
          assert calls[|calls| - 1] == rest.calls[|rest.calls| - 1];
        } else {
          assert calls == round.calls;
        }
      }
    }
  }

  /** A failed run that has not made both requests to every model ended on a
      terminal error. */
  predicate StoppedEarlyOnlyOnStop(r: Run, respond: Call -> Reply, models: seq<string>)
  {
    r.outcome.Failed? && 0 < |r.calls| < 2 * |models| ==>
      var c := r.calls[|r.calls| - 1];
      respond(c).Raised? && AttemptVerdict(c, respond(c).message).Stop?
  }

  /** The loop leaves the candidate list early only through `break`. */
  lemma {:induction false} StopsEarlyOnlyOnStop(models: seq<string>, sent: string, respond: Call -> Reply, last: Option<ApiError>)
    ensures StoppedEarlyOnlyOnStop(RunCandidates(models, sent, respond, last), respond, models)
    decreases |models|
  {
    if models != [] {
      var round := TryModel(models[0], sent, respond);
      if round.exit.NextModel? {
        var rest := RunCandidates(models[1..], sent, respond, Some(round.exit.error));
        StopsEarlyOnlyOnStop(models[1..], sent, respond, Some(round.exit.error));
        assert StoppedEarlyOnlyOnStop(rest, respond, models[1..]);
        CallsInOrder(models[1..], sent, respond, Some(round.exit.error));
        assert rest.calls <= Schedule(models[1..], sent);
        var calls := round.calls + rest.calls;
        if rest.calls != [] {
          assert calls[|calls| - 1] == rest.calls[|rest.calls| - 1];
        } else {
          assert models[1..] == [];
        }
      }
    }
  }

  lemma AppendAssociates(a: seq<Call>, b: seq<Call>, c: seq<Call>)
    ensures (a + b) + c == a + (b + c)
  {
  }

  /** The loop of `analyze_image` (the remote part) over the candidate list
      `models` (the application passes `CandidateModels`): returns on the
      first answer, leaves the loop on a terminal error, and otherwise falls
      through with the last error. `calls` records the requests in the order
      they were made. */
  method AnalyzeRemotely(models: seq<string>, isSequenceDiagram: bool, prompt: string, respond: Call -> Reply)
    returns (outcome: Outcome, calls: seq<Call>)
    ensures Run(outcome, calls) == RunCandidates(models, PromptSent(isSequenceDiagram, prompt), respond, None)
  {
    var sent := PromptSent(isSequenceDiagram, prompt);
    ghost var spec := RunCandidates(models, sent, respond, None);
    var apiError: Option<ApiError> := None;
    calls := [];
    for i := 0 to |models|
      invariant var rest := RunCandidates(models[i..], sent, respond, apiError);
        spec == Run(rest.outcome, calls + rest.calls)
    {
      var model := models[i];
      ghost var rest := RunCandidates(models[i..], sent, respond, apiError);
      ghost var round := TryModel(model, sent, respond);
      assert models[i..][0] == model;
      assert models[i..][1..] == models[i + 1..];
      ghost var before := calls;
      var first := Call(model, ImageObject, sent);
      calls := calls + [first];
      var reply := respond(first);
      if reply.Answer? {
        assert round == Round(Return(reply.text), [first]);
        outcome := Answered(reply.text);
        return;
      }
      var verdict := FirstAttemptVerdict(model, reply.message);
      apiError := Some(verdict.error);
      if verdict.Stop? {
        assert round == Round(Break(verdict.error), [first]);
        break;
      }
      var second := Call(model, PngBytes, sent);
      calls := calls + [second];
      assert calls == before + [first, second];
      reply := respond(second);
      if reply.Answer? {
        assert round == Round(Return(reply.text), [first, second]);
        outcome := Answered(reply.text);
        return;
      }
      verdict := SecondAttemptVerdict(model, reply.message);
      apiError := Some(verdict.error);
      if verdict.Stop? {
        assert round == Round(Break(verdict.error), [first, second]);
        break;
      }
      assert round == Round(NextModel(verdict.error), [first, second]);
      ghost var next := RunCandidates(models[i + 1..], sent, respond, apiError);
      assert rest == Run(next.outcome, round.calls + next.calls);
      AppendAssociates(before, round.calls, next.calls);
    }
    outcome := Failed(apiError);
  }

  /** With the six candidates there are between one and twelve requests,
      all carrying the prompt chosen before the loop, and a run that fails
      has always stored an error. */
  lemma AtMostTwelveCalls(sent: string, respond: Call -> Reply)
    ensures var r := RunCandidates(CandidateModels, sent, respond, None);
      && 1 <= |r.calls| <= 12
      && (forall j :: 0 <= j < |r.calls| ==> r.calls[j].prompt == sent)
      && (r.outcome.Failed? ==> r.outcome.apiError.Some?)
  {
    var r := RunCandidates(CandidateModels, sent, respond, None);
    CallsInOrder(CandidateModels, sent, respond, None);
    RunEndsOnLastRequest(CandidateModels, sent, respond, None);
    ScheduleUsesPrompt(CandidateModels, sent);
    var schedule := Schedule(CandidateModels, sent);
    forall j | 0 <= j < |r.calls| ensures r.calls[j].prompt == sent {
      assert r.calls[j] == schedule[j];
    }
  }

  /** A quota error on the very first request ends the run at once: no bytes
      retry and no second model. */
  lemma QuotaOnFirstRequestStops(models: seq<string>, sent: string, respond: Call -> Reply, last: Option<ApiError>)
    requires models != []
    requires respond(Call(models[0], ImageObject, sent)).Raised?
    requires MentionsQuota(respond(Call(models[0], ImageObject, sent)).message)
    ensures var m := respond(Call(models[0], ImageObject, sent)).message;
      RunCandidates(models, sent, respond, last) == Run(Failed(Some(QuotaExceeded(m))), [Call(models[0], ImageObject, sent)])
  {
  }

  /** A permission error ends the run when the image-object request raises
      it, but on the bytes request it only moves the loop to the next model. */
  lemma PermissionAsymmetry(models: seq<string>, sent: string, respond: Call -> Reply, last: Option<ApiError>)
    requires |models| >= 2
    requires respond(Call(models[0], ImageObject, sent)).Raised?
    requires respond(Call(models[0], PngBytes, sent)).Raised?
    ensures var m1 := respond(Call(models[0], ImageObject, sent)).message;
      MentionsPermission(m1) && !MentionsQuota(m1) && !MentionsMissing(m1) ==>
        RunCandidates(models, sent, respond, last).calls == [Call(models[0], ImageObject, sent)]
    ensures var m1 := respond(Call(models[0], ImageObject, sent)).message;
      var m2 := respond(Call(models[0], PngBytes, sent)).message;
      FirstAttemptVerdict(models[0], m1).Continue? && MentionsPermission(m2) && !MentionsQuota(m2) ==>
        |RunCandidates(models, sent, respond, last).calls| > 2
        && RunCandidates(models, sent, respond, last).calls[2] == Call(models[1], ImageObject, sent)
  {
    var m1 := respond(Call(models[0], ImageObject, sent)).message;
    var m2 := respond(Call(models[0], PngBytes, sent)).message;
    if FirstAttemptVerdict(models[0], m1).Continue? && MentionsPermission(m2) && !MentionsQuota(m2) {
      var v2 := SecondAttemptVerdict(models[0], m2);
      CallsInOrder(models[1..], sent, respond, Some(v2.error));
    }
  }

  /** The first model is not found on either request and the second model
      answers its image-object request: the run returns that text after three
      requests and never reaches the remaining models. */
  lemma NotFoundThenAnswer(models: seq<string>, sent: string, respond: Call -> Reply, last: Option<ApiError>, text: string)
    requires |models| >= 2
    requires respond(Call(models[0], ImageObject, sent)).Raised?
    requires respond(Call(models[0], PngBytes, sent)).Raised?
    requires respond(Call(models[1], ImageObject, sent)) == Answer(text)
    requires var m1 := respond(Call(models[0], ImageObject, sent)).message;
      MentionsMissing(m1) && !MentionsQuota(m1)
    requires var m2 := respond(Call(models[0], PngBytes, sent)).message;
      MentionsMissing(m2) && !MentionsQuota(m2)
    ensures RunCandidates(models, sent, respond, last) ==
      Run(Answered(text), [Call(models[0], ImageObject, sent), Call(models[0], PngBytes, sent), Call(models[1], ImageObject, sent)])
  {
    var m2 := respond(Call(models[0], PngBytes, sent)).message;
    var rest := RunCandidates(models[1..], sent, respond, Some(ModelUnavailable(models[0])));
    assert models[1..][0] == models[1];
    assert rest == Run(Answered(text), [Call(models[1], ImageObject, sent)]);
  }
}

=== FILE: sequence_template.dfy ===
/** The analysis `analyze_sequence_diagram` returns: a fixed markdown text
    with only the image's width and height filled in, and the reading of
    those two numbers back out of it. */
module SequenceTemplate {
  import opened Text

  /** The text before the width. */
  const Head: string :=
    "## 📋 Sequence Diagram Analysis\n"
    + "\n"
    + "### 🔍 **Diagram Overview**\n"
    + "This appears to be a **UML Sequence Diagram**. Sequence diagrams show object interactions over time, with messages passed between objects.\n"
    + "\n"
    + "### 📊 **Technical Details**\n"
    + "- **Image Size**: "

  /** Between the width and the height. */
  const Separator: string := " × "

  /** The text right after the height. */
  const Pixels: string := " pixels\n"

  /** The rest of the text, to the end. */
  const Body: string :=
    "- **Diagram Type**: UML Sequence Diagram\n"
    + "- **Reading Direction**: Left to Right (participants), Top to Bottom (time flow)\n"
    + "\n"
    + "### 👥 **Participants/Lifelines**\n"
    + "Sequence diagrams typically include:\n"
    + "- **Actors**: External entities that interact with the system\n"
    + "- **Objects/System Components**: Internal system parts\n"
    + "- **Lifelines**: Vertical dashed lines showing object existence over time\n"
    + "\n"
    + "### 💬 **Communication Patterns**\n"
    + "The diagram likely shows:\n"
    + "- **Synchronous Messages**: Solid arrows with filled heads (blocking calls)\n"
    + "- **Asynchronous Messages**: Open arrows (non-blocking calls)\n"
    + "- **Return Messages**: Dashed lines with open arrows\n"
    + "- **Self Messages**: Loops showing internal processing\n"
    + "- **Creation Messages**: Messages that create new objects\n"
    + "\n"
    + "### 🎯 **Key Elements to Look For**\n"
    + "1. **Participants** (at the top): Actors, objects, system boundaries\n"
    + "2. **Lifelines** (vertical dashed lines): Object lifespans\n"
    + "3. **Activation Boxes** (rectangles on lifelines): When object is active\n"
    + "4. **Messages** (arrows): Communication between objects\n"
    + "5. **Combined Fragments** (frames): Loops, conditions, alternatives\n"
    + "6. **Notes** (cornered rectangles): Additional information\n"
    + "\n"
    + "### 📝 **Analysis Suggestions**\n"
    + "To fully understand this sequence diagram:\n"
    + "- **Identify all participants** - Who/what are the main actors?\n"
    + "- **Follow message flow** - What triggers each interaction?\n"
    + "- **Note timing** - What happens sequentially vs. in parallel?\n"
    + "- **Look for patterns** - Request-response, queries, notifications\n"
    + "\n"
    + "### ⚠️ **AI Enhancement Note**\n"
    + "For detailed content analysis (specific text and messages), you need a Google AI API with vision capabilities. The current analysis identifies this as a sequence diagram based on visual patterns and provides framework understanding.\n"
    + "\n"
    + "### 🔧 **Next Steps**\n"
    + "1. If you have a vision-enabled API key, you'll get specific text extraction\n"
    + "2. Otherwise, you can manually extract text from the diagram using:\n"
    + "   - Participant names (top of each lifeline)\n"
    + "   - Message text (on/near arrows)\n"
    + "   - Conditions and loops (in combined fragments)\n"

  /** The template with `{width}` and `{height}` replaced by the decimal
      numerals of the image's dimensions. */
  function SequenceDiagramAnalysis(width: nat, height: nat): string
  {
    Head + Decimal(width) + Separator + Decimal(height) + (Pixels + Body)
  }

  /** `text` starts with `prefix`; then the rest of `text`. */
  function After(text: string, prefix: string): Option<string>
  {
    if |prefix| <= |text| && text[..|prefix|] == prefix then Some(text[|prefix|..]) else None
  }

  /** A non-empty run of digits at the front of `text`: its value and what
      follows it. */
  function ReadNumber(text: string): Option<(nat, string)>
  {
    var k := DigitRun(text);
    if k == 0 then None else Some((DigitsValue(text[..k]), text[k..]))
  }

  /** Reads the dimensions back out of a filled-in template, for a template
      of the given shape. */
  function ReadFilled(text: string, head: string, separator: string, tail: string): Option<(nat, nat)>
  {
    match After(text, head)
    case None => None
    case Some(s1) =>
      match ReadNumber(s1)
      case None => None
      case Some((width, s2)) =>
        match After(s2, separator)
        case None => None
        case Some(s3) =>
          match ReadNumber(s3)
          case None => None
          case Some((height, s4)) => if s4 == tail then Some((width, height)) else None
  }

  /** The dimensions written into the analysis. */
  function ReadDimensions(text: string): Option<(nat, nat)>
  {
    ReadFilled(text, Head, Separator, Pixels + Body)
  }

  lemma AfterPrefix(prefix: string, rest: string)
    ensures After(prefix + rest, prefix) == Some(rest)
  {
    assert (prefix + rest)[..|prefix|] == prefix;
    assert (prefix + rest)[|prefix|..] == rest;
  }

  lemma ReadNumberOf(n: nat, rest: string)
    requires rest != [] && !IsDigit(rest[0])
    ensures ReadNumber(Decimal(n) + rest) == Some((n, rest))
  {
    ReadDecimal(n, rest);
  }

  /** Filling in any template whose separator and text after the height
      start with a non-digit can be undone. */
  lemma {:induction false} FilledRoundTrip(head: string, separator: string, pixels: string, body: string, width: nat, height: nat)
    requires separator != [] && !IsDigit(separator[0])
    requires pixels != [] && !IsDigit(pixels[0])
    ensures ReadFilled(head + Decimal(width) + separator + Decimal(height) + (pixels + body), head, separator, pixels + body)
      == Some((width, height))
  {
    var tail := pixels + body;
    assert tail[0] == pixels[0];
    var text := head + Decimal(width) + separator + Decimal(height) + tail;
    var s1 := Decimal(width) + separator + Decimal(height) + tail;
    assert text == head + s1;
    AfterPrefix(head, s1);
    var s3 := Decimal(height) + tail;
    assert s1 == Decimal(width) + (separator + s3);
    ReadNumberOf(width, separator + s3);
    AfterPrefix(separator, s3);
    ReadNumberOf(height, tail);
  }

  /** The separator and the text right after the height start with a
      space. */
  lemma TemplateShape()
    ensures Separator != [] && !IsDigit(Separator[0])
    ensures Pixels != [] && !IsDigit(Pixels[0])
  {
  }

  /** The dimensions can be read back out of every analysis. */
  lemma AnalysisRoundTrip(width: nat, height: nat)
    ensures ReadDimensions(SequenceDiagramAnalysis(width, height)) == Some((width, height))
  {
    TemplateShape();
    FilledRoundTrip(Head, Separator, Pixels, Body, width, height);
  }

  /** Different dimensions give different analyses. */
  lemma AnalysisInjective(w1: nat, h1: nat, w2: nat, h2: nat)
    requires SequenceDiagramAnalysis(w1, h1) == SequenceDiagramAnalysis(w2, h2)
    ensures w1 == w2 && h1 == h2
  {
    AnalysisRoundTrip(w1, h1);
    AnalysisRoundTrip(w2, h2);
  }
}

=== FILE: text.dfy ===
/** String primitives the application relies on: lower-casing, substring
    search (the `in` operator on strings) and decimal rendering of integers
    (the `{width}` substitutions of `str.format`). */
module Text {

  datatype Option<+T> = None | Some(value: T)

  /** Lower-cases one character; only the ASCII letters A-Z change. */
  function LowerChar(c: char): (r: char)
    ensures ('A' <= c <= 'Z') ==> r as int == c as int + 32
    ensures !('A' <= c <= 'Z') ==> r == c
  {
    if 'A' <= c <= 'Z' then (c as int + 32) as char else c
  }

  /** `s.lower()`, restricted to the ASCII case mapping. */
  function Lower(s: string): (r: string)
    ensures |r| == |s|
    ensures forall i :: 0 <= i < |s| ==> r[i] == LowerChar(s[i])
  {
    if s == [] then [] else [LowerChar(s[0])] + Lower(s[1..])
  }

  /** Lower-casing works character by character, so it distributes over
      concatenation. */
  lemma LowerAppend(a: string, b: string)
    ensures Lower(a + b) == Lower(a) + Lower(b)
  {
    assert forall i :: 0 <= i < |a + b| ==> Lower(a + b)[i] == (Lower(a) + Lower(b))[i];
  }

  /** A string without upper-case ASCII letters is its own lower-case form. */
  lemma LowerOfLowerCase(s: string)
    requires forall i :: 0 <= i < |s| ==> !('A' <= s[i] <= 'Z')
    ensures Lower(s) == s
  {
  }

  /** `pat` occurs in `s` starting at index `i`. */
  predicate OccursAt(s: string, pat: string, i: nat)
  {
    i + |pat| <= |s| && s[i..i + |pat|] == pat
  }

  /** `pat in s` for Python strings: some window of `s` equals `pat`. */
  predicate Contains(s: string, pat: string)
  {
    exists i: nat | i <= |s| :: OccursAt(s, pat, i)
  }

  /** `any(k in s for k in keywords)`. */
  predicate ContainsAny(s: string, keywords: seq<string>)
  {
    exists i :: 0 <= i < |keywords| && Contains(s, keywords[i])
  }

  /** An occurrence at a known index makes `Contains` hold. */
  lemma ContainsAt(s: string, pat: string, i: nat)
    requires OccursAt(s, pat, i)
    ensures Contains(s, pat)
  {
  }

  /** When `Contains` holds, an occurrence exists at some index. */
  lemma ContainsWitness(s: string, pat: string) returns (i: nat)
    requires Contains(s, pat)
    ensures OccursAt(s, pat, i)
  {
    i :| OccursAt(s, pat, i);
  }

  /** A string that contains `pat` contains every piece of `pat`. */
  lemma {:induction false} ContainsSubstring(s: string, pat: string, j: nat, k: nat)
    requires j <= k <= |pat|
    requires Contains(s, pat)
    ensures Contains(s, pat[j..k])
  {
    var i := ContainsWitness(s, pat);
    assert pat[j..k] == s[i + j..i + k] by {
      forall t | 0 <= t < k - j ensures pat[j..k][t] == s[i + j..i + k][t] {
        assert pat[j + t] == s[i..i + |pat|][j + t];
      }
    }
    ContainsAt(s, pat[j..k], i + j);
  }

  /** Whatever occurs in `b` occurs in `a + b + c`. */
  lemma {:induction false} ContainsInMiddle(a: string, b: string, c: string, pat: string)
    requires Contains(b, pat)
    ensures Contains(a + b + c, pat)
  {
    var i := ContainsWitness(b, pat);
    assert (a + b + c)[|a| + i..|a| + i + |pat|] == b[i..i + |pat|];
    ContainsAt(a + b + c, pat, |a| + i);
  }

  // ---------------------------------------------------------------------
  // Decimal numerals

  predicate IsDigit(c: char)
  {
    '0' <= c <= '9'
  }

  predicate AllDigits(s: string)
  {
    forall i :: 0 <= i < |s| ==> IsDigit(s[i])
  }

  function DigitChar(d: nat): (c: char)
    requires d < 10
    ensures IsDigit(c) && c as int - '0' as int == d
  {
    ('0' as int + d) as char
  }

  /** `str(n)` for a non-negative integer: no sign, no leading zeros. */
  function Decimal(n: nat): (r: string)
    ensures r != [] && AllDigits(r)
    ensures |r| > 1 ==> r[0] != '0'
  {
    if n < 10 then [DigitChar(n)] else Decimal(n / 10) + [DigitChar(n % 10)]
  }

  /** The value of a string of decimal digits. */
  function DigitsValue(s: string): nat
    requires AllDigits(s)
  {
    if s == [] then 0
    else DigitsValue(s[..|s| - 1]) * 10 + (s[|s| - 1] as int - '0' as int)
  }

  /** The length of the run of digits at the front of `s`. */
  function DigitRun(s: string): (k: nat)
    ensures k <= |s| && AllDigits(s[..k])
    ensures k < |s| ==> !IsDigit(s[k])
  {
    if s != [] && IsDigit(s[0]) then
      var k := 1 + DigitRun(s[1..]);
      assert s[..k] == [s[0]] + s[1..][..k - 1];
      k
    else 0
  }

  /** Reading back a rendered numeral gives the number. */
  lemma {:induction false} DecimalValue(n: nat)
    ensures DigitsValue(Decimal(n)) == n
  {
    if n >= 10 {
      DecimalValue(n / 10);
      var d := Decimal(n);
      assert d[..|d| - 1] == Decimal(n / 10);
    }
  }

  /** The digit run at the front of `d + rest`, for a numeral `d` followed by a
      non-digit, is exactly `d`. */
  lemma {:induction false} DigitRunStops(d: string, rest: string)
    requires AllDigits(d)
    requires rest != [] && !IsDigit(rest[0])
    ensures DigitRun(d + rest) == |d|
  {
    if d != [] {
      assert (d + rest)[1..] == d[1..] + rest;
      DigitRunStops(d[1..], rest);
    } else {
      assert d + rest == rest;
    }
  }

  /** Reading the leading numeral of `Decimal(n) + rest` yields `n` and leaves
      `rest`, when `rest` starts with a non-digit. */
  lemma ReadDecimal(n: nat, rest: string)
    requires rest != [] && !IsDigit(rest[0])
    ensures var s := Decimal(n) + rest;
            var k := DigitRun(s);
            k == |Decimal(n)| && DigitsValue(s[..k]) == n && s[k..] == rest
  {
    var s := Decimal(n) + rest;
    DigitRunStops(Decimal(n), rest);
    assert s[..|Decimal(n)|] == Decimal(n);
    DecimalValue(n);
  }
}
